=== FILE: README.md ===
# Drop-zone drag tracker

A Dafny model of the drag-and-drop file-drop zone wrapper of a chat
application's UI layer (`src/components/DragAndDrop/index.js`). The wrapper
listens at the document level for `dragenter`, `dragleave` and `drop`. It lets
through only events whose target lies inside the zone and whose payload
the `shouldAcceptDrop` prop accepts. By default that means the payload
advertises `"Files"`. It tracks a two-valued drag state (`dragleave` /
`dragenter`, here `Left` / `Entered`) so that `onDragEnter` fires once per
drag session and not again for every nested child the pointer crosses. A
leave closes the session only when the pointer lies on or beyond an edge of a
cached bounding rectangle, or when the leave comes from the active drop zone
itself with no related target. A drop always closes it. The rectangle is
re-measured when listeners are added and on window resize. At or below the mobile
responsive breakpoint its horizontal edges are pinned to the viewport.
Listeners are added and removed as the hosting screen gains or loses focus
and as the zone is enabled or disabled.

Modules, one per concern:

- `DragEvent` (`drag_event.dfy`): the event record (DOM queries as plain
  fields), the event-type constants, the drop-effect hint, the callbacks and
  the default acceptance policy.
- `Geometry` (`geometry.dfy`): the rectangle, the responsive clamp and the
  leave boundary test.
- `DragHandler` (`drag_handler.dfy`): the drag state machine (`Handle`) and the
  admitting listener (`Listen`), as pure functions returning an `Outcome`
  (next state, drop-effect hint, callbacks fired).
- `DragSession` (`drag_session.dfy`): runs of the listener over event
  sequences and the session discipline they obey.
- `Listeners` (`listeners.dfy`): the add/remove rule of the two effects.
- `DropZone` (`drop_zone.dfy`): the whole component driven by host inputs
  (drag events, resizes, re-renders with new focus/enabled values).

The callbacks fired and the drop-effect hint set are returned by the step
functions, not performed. The DOM and React's hooks become inputs: `Measure`
carries the zone's bounding rectangle and the viewport width, and each
`Rerender` carries the new focus and enabled signals.

Three facts about the code that shape the model:

- Removing listeners (lines 131-136) never resets `dropZoneDragState`
  (line 40). `DropZone.StaleSessionAfterRefocus` shows the consequence. A
  session open when the screen loses focus is still open after refocus, so
  the next admitted enter fires nothing.
- `calculateDropZoneClientReact` calls `getBoundingClientRect` without
  checking that the zone element exists (line 43). The model always receives
  a measurement.
- The mount effect returns its cleanup only when the zone is enabled at
  mount (lines 139-144), and the focus effect returns none. A zone mounted
  disabled and enabled later keeps its listeners after unmount;
  `DropZone.ListenersOutliveDisabledMount` shows it.

## Model

| member | source | states |
|---|---|---|
| DragEvent.ScanForFiles | src/components/DragAndDrop/index.js:20-24 | scanning the type list from index i finds a hit exactly when some entry at or after i is "Files" |
| DragEvent.AcceptsFiles | src/components/DragAndDrop/index.js:18-27 | the default acceptance predicate is true exactly when the type list is present and contains "Files"; an absent list is rejected |
| DragHandler.DefaultConfig | src/components/DragAndDrop/index.js:17-29 | the default props accept an event exactly when its type list is present and contains "Files", and keep the given active zone id and breakpoint |
| Geometry.ComputeRect | src/components/DragAndDrop/index.js:42-53 | width, top and bottom are copied from the measurement; at or below the breakpoint left is 0 and right is the viewport width, above it both are the measured edges |
| Geometry.ComputeRectWellFormed | src/components/DragAndDrop/index.js:42-53 | an ordered measurement at a non-negative viewport width gives an ordered cached rectangle |
| Geometry.CachedLeaveBoundary | src/components/DragAndDrop/index.js:45-49 | the leave test against the cached rectangle is the test against the measured edges above the breakpoint, and against the viewport's horizontal edges with the measured top and bottom at or below it |
| Geometry.NarrowViewportSpansWidth | src/components/DragAndDrop/index.js:45-49 | at or below the breakpoint any pointer strictly inside the viewport width and between top and bottom passes the boundary test as inside, whatever the measured horizontal edges |
| Geometry.OutsideIsComplementOfInside | src/components/DragAndDrop/index.js:80-83 | the four edge comparisons of the leave test hold exactly when the pointer is not strictly inside the rectangle |
| Geometry.ClampExample | src/components/DragAndDrop/index.js:46-52 | a zone measured at 20..380 in a 400-wide viewport under a 500 breakpoint is cached as 0..400 |
| DragHandler.Handle | src/components/DragAndDrop/index.js:65-101 | at most one callback per event; onDragEnter fires iff an enter arrives in state Left, onDragLeave iff a leave arrives in Entered and the leave test holds, onDrop iff the event is a drop; the hint becomes copy iff onDragEnter fires; no callback means no state change |
| DragHandler.Listen | src/components/DragAndDrop/index.js:108-120 | the hint is "none" iff the target is outside the zone or the predicate rejects the payload, and then nothing fires and the state stays; admitted events are classified by the handler |
| DragHandler.EnterOpensSessionOnce | src/components/DragAndDrop/index.js:68-76 | an admitted enter always leaves the state Entered; from Left it sets copy and fires onDragEnter, from Entered it does nothing |
| DragHandler.LeaveWhileLeftIsSilent | src/components/DragAndDrop/index.js:77-78 | a leave in state Left never fires onDragLeave and keeps the state |
| DragHandler.LeaveWhileEnteredFollowsBoundary | src/components/DragAndDrop/index.js:78-90 | an admitted leave in Entered moves to Left and fires onDragLeave exactly when the pointer is on or beyond an edge or the target is the active zone with no related target; otherwise nothing happens |
| DragHandler.DropAlwaysResets | src/components/DragAndDrop/index.js:92-95 | an admitted drop from either state ends in Left and fires onDrop exactly once |
| DragHandler.OtherKindsAreInert | src/components/DragAndDrop/index.js:96-97 | event types other than enter, leave and drop change nothing and fire nothing |
| DragHandler.DefaultRejectsNonFiles | src/components/DragAndDrop/index.js:112-117 | under the default policy a payload without "Files" is marked "none", fires nothing and keeps the state |
| DragHandler.BoundaryExample | src/components/DragAndDrop/index.js:79-89 | with the zone cached at 10..110 by 10..60, a leave at (5, 30) closes the session and a leave at (50, 30) from a child does not |
| DragSession.Run | src/components/DragAndDrop/index.js:108-120 | a run fires at most one callback per event, and a run that fires nothing ends in the state it started from |
| DragSession.RunAlternates | src/components/DragAndDrop/index.js:65-101 | every run's callbacks alternate: onDragEnter only when no session is open, onDragLeave only when one is, onDrop closes any; the history starts and ends as the drag state does |
| DragSession.EnterFiresOncePerSession | src/components/DragAndDrop/index.js:68-76 | from the initial state, onDragEnter fires at most once more than onDragLeave and onDrop together |
| DragSession.ConsecutiveEntersFireOnce | src/components/DragAndDrop/index.js:68-76 | any non-empty run of admitted enters ends in Entered and fires onDragEnter exactly once from Left and never from Entered |
| DragSession.DropResetsAnyHistory | src/components/DragAndDrop/index.js:92-95 | after any history, an admitted drop ends the run in Left with onDrop as the last callback |
| DragSession.RejectedRunIsInert | src/components/DragAndDrop/index.js:112-117 | a run of events none of which is admitted fires nothing and keeps the drag state |
| Listeners.MountEffect | src/components/DragAndDrop/index.js:138-146 | on mount listeners are added exactly when the zone is not disabled, with the rectangle measured then |
| Listeners.SyncEffect | src/components/DragAndDrop/index.js:148-157 | when neither signal changed the registration is unchanged; otherwise listeners are present exactly when focused and not disabled, freshly measured when added |
| Listeners.SyncPreservesAgreement | src/components/DragAndDrop/index.js:148-157 | if the registration agreed with the previous signals, it agrees with the new ones after the effect, whether or not the effect runs |
| DropZone.Mount | src/components/DragAndDrop/index.js:138-157 | a fresh component keeps the props it was mounted with, starts in Left with listeners present exactly when focused and enabled, its rectangle measured at mount, the mount signals recorded, and a mount cleanup exactly when not disabled |
| DropZone.MountWithDefaults | src/components/DragAndDrop/index.js:28-28 | with `isDisabled` omitted the zone is enabled: listeners are registered exactly when the screen is focused, and the mount cleanup exists |
| DropZone.Unmount | src/components/DragAndDrop/index.js:138-146 | unmounting removes the listeners when the mount effect returned its cleanup (enabled at mount) and leaves the registration as it was otherwise; props, signals and drag state are kept |
| DropZone.Deliver | src/components/DragAndDrop/index.js:122-157 | only dragenter, dragleave and drop events reach the listener, and only while registered; any other event, and any drag event or resize while detached, leaves the component and the hint untouched; resizes replace the cached rectangle only while registered; a re-render records the new signals and runs the focus effect on the previous ones; nothing but a registered drag event fires a callback, and registration stays in step with the signals |
| DropZone.RegistrationFollowsSignals | src/components/DragAndDrop/index.js:138-157 | from mount onwards, after any host inputs, listeners are registered exactly when the signals of the last re-render (or of the mount, if none) say focused and not disabled |
| DropZone.StaysSynced | src/components/DragAndDrop/index.js:148-157 | a component whose registration agrees with its signals keeps agreeing over any inputs, and ends recording the signals of the last re-render |
| DropZone.ListenersOutliveDisabledMount | src/components/DragAndDrop/index.js:139-141 | a zone mounted disabled, enabled by a re-render and then unmounted still has its listeners, and an admitted drop still fires onDrop |
| DropZone.CallbacksOnlyWhileActive | src/components/DragAndDrop/index.js:152-156 | a drag event fires a callback only while the screen is focused and the zone enabled |
| DropZone.DetachedIsSilent | src/components/DragAndDrop/index.js:131-136 | with listeners removed and no re-render, no input fires a callback and the component, drag state included, is left exactly as it was |
| DropZone.UnmountIsSilent | src/components/DragAndDrop/index.js:142-144 | after unmounting a zone that was enabled at mount, no later drag event or resize fires a callback |
| DropZone.AttachedRunIsSessionRun | src/components/DragAndDrop/index.js:125-127 | while registered and receiving only document events (of any type), the component fires exactly what the listener run fires and ends in its drag state |
| DropZone.ResizeKeepsSession | src/components/DragAndDrop/index.js:55-58 | a resize while registered replaces the cached rectangle with the clamp of the new measurement and keeps the drag state, firing nothing |
| DropZone.StaleSessionAfterRefocus | src/components/DragAndDrop/index.js:131-136 | removing listeners does not reset the drag state: after unfocus and refocus mid-session an admitted enter fires nothing |
| DropZone.HostRunAlternates | src/components/DragAndDrop/index.js:65-157 | every run of the whole component, resizes and re-renders included, fires a well-bracketed history: onDragEnter only while no session is open, onDragLeave only while one is, onDrop closes any |
| DropZone.EnterFiresOncePerSessionFromMount | src/components/DragAndDrop/index.js:68-76 | from mount, over any host inputs, onDragEnter fires at most once more than onDragLeave and onDrop together |

## Left out

- The 100 ms throttle on the resize listener (`_.throttle`, line 60). Its
  timing is wall-clock behaviour of a foreign library. A resize is modelled
  as an immediate replacement of the cached rectangle.
- A trailing throttled resize call that runs after its listener was removed.
  It only rewrites the cached rectangle. No callback fires from it, and the
  rectangle is measured again whenever listeners are added. The model ignores
  resizes while listeners are removed.
- Listener function identity across renders. The registration is modelled
  as present or absent, which assumes that the function removed is the one
  added. For the drag listener (`dropZoneDragListener`, lines 108-120) this
  holds only while `onDragEnter`, `onDragLeave`, `onDrop`, `activeDropZoneId`
  and `shouldAcceptDrop` keep their identity across renders (the `useCallback`
  dependencies at lines 100 and 119). The throttled resize listener is
  created anew on every render, so a later remove may not match an earlier
  add. `DropZone.CallbacksOnlyWhileActive`, `DropZone.DetachedIsSilent`,
  `DropZone.UnmountIsSilent` and `DropZone.RegistrationFollowsSignals` rest on
  this assumption.
- DropZone.Deliver: the props (`Config`) are fixed for the component's
  lifetime. In the code props may change on any render, and a listener
  already registered keeps calling the callbacks and predicate of the render
  that created it.
- `preventDefault` on every document drag event (line 110). It has no effect
  on the tracker's state.
- `document.getElementById`, `contains`, `getBoundingClientRect`, `useRef`,
  `useCallback`, `withNavigationFocus`. Their results are inputs of the model.
  The model assumes the zone element exists whenever it is measured.
- `usePrevious` is not part of this model. The model assumes it reports no
  previous value on the first render, so both effects run at mount.
- The value of `variables.mobileResponsiveWidthBreakpoint` is not part of
  this model. The breakpoint is a configuration parameter.
- Floating-point coordinates. They are integers here, because the tracker
  only compares them with `<=` and `>=`.
- `src/components/ConfirmModal.js`, `src/components/ReportActionItem/ReportActionItemImages.js`
  and `src/hooks/useEffectOnPageLoad.js`. They are presentation, layout and
  page-load plumbing with no tracker state.

=== FILE: drag_event.dfy ===
/**
 The native drag-and-drop events the drop zone listens to, reduced to the
 facts the tracker inspects, and the default payload-acceptance policy.

 DOM queries become plain fields of the event record: whether the drop zone
 element contains the event target, the payload's advertised type list, the
 pointer's viewport coordinates, the target's `id` attribute and whether the
 event has a related target.
 */
module DragEvent {

  datatype Option<+T> = None | Some(value: T)

  /** The `type` strings of the three document-level events the zone handles. */
  const DRAG_ENTER_EVENT: string := "dragenter"
  const DRAG_LEAVE_EVENT: string := "dragleave"
  const DROP_EVENT: string := "drop"

  /** The payload type the default policy looks for. */
  const FILES_TYPE: string := "Files"

  datatype Event = Event(
    kind: string,                   // event.type
    targetInZone: bool,             // the drop zone element contains event.target
    types: Option<seq<string>>,     // event.dataTransfer.types; None when absent
    clientX: int,
    clientY: int,
    targetId: Option<string>,       // event.target's id attribute; None when it has none
    hasRelatedTarget: bool)         // event.relatedTarget is set

  /** The drop-effect hint the listener leaves on the event's data transfer. */
  datatype DropEffect = Untouched | CopyEffect | NoneEffect

  /** The host callbacks, in the order the tracker invokes them. */
  datatype Callback = OnDragEnter | OnDragLeave | OnDrop

  /** Scans `types` from index `i` onwards for the "Files" entry, stopping at
      the first hit, as the default policy's loop does. */
  function ScanForFiles(types: seq<string>, i: nat): (found: bool)
    requires i <= |types|
    ensures found <==> exists j :: i <= j < |types| && types[j] == FILES_TYPE
    decreases |types| - i
  {
    if i == |types| then false
    else if types[i] == FILES_TYPE then true
    else ScanForFiles(types, i + 1)
  }

  /** The default `shouldAcceptDrop`: accept exactly the payloads whose type
      list is present and advertises "Files". */
  function AcceptsFiles(types: Option<seq<string>>): (accept: bool)
    ensures accept <==> types.Some? && FILES_TYPE in types.value
  {
    match types
    case None => false
    case Some(ts) => ScanForFiles(ts, 0)
  }

  /** The default policy lifted to whole events. */
  function DefaultShouldAcceptDrop(e: Event): bool {
    AcceptsFiles(e.types)
  }
}

=== FILE: drag_handler.dfy ===
/**
 The drag-tracking state machine of the drop zone: the handler that classifies
 an admitted event as enter, leave or drop, and the document-level listener
 that admits or rejects each event before it reaches the handler.

 Callbacks and the drop-effect hint are effects of a step, returned in an
 `Outcome` rather than performed.
 */
module DragHandler {
  import opened DragEvent
  import opened Geometry

  /** The last detected drag state of the zone. It starts as `Left`: nobody is
      dragging when the component appears. */
  datatype DragState = Left | Entered

  const InitialDragState: DragState := Left

  /** The zone is enabled unless the host says otherwise. */
  const DefaultIsDisabled: bool := false

  /** Props the handler and listener read. */
  datatype Config = Config(
    activeDropZoneId: string,
    shouldAcceptDrop: Event -> bool,
    breakpoint: int)           // the mobile responsive width breakpoint

  /** The configuration with the default acceptance policy. */
  function DefaultConfig(activeDropZoneId: string, breakpoint: int): (cfg: Config)
    ensures forall e :: cfg.shouldAcceptDrop(e) <==> e.types.Some? && FILES_TYPE in e.types.value
    ensures cfg.activeDropZoneId == activeDropZoneId && cfg.breakpoint == breakpoint
  {
    Config(activeDropZoneId, DefaultShouldAcceptDrop, breakpoint)
  }

  datatype Outcome = Outcome(state: DragState, dropEffect: DropEffect, fired: seq<Callback>)

  /** The leave test: the pointer is on or beyond an edge of the cached
      rectangle, or the leave comes from the active drop zone itself with no
      related target (a file manager window now covers the zone). */
  predicate LeaveDetected(rect: Rect, activeDropZoneId: string, e: Event) {
    || OutsideRect(rect, e.clientX, e.clientY)
    || (e.targetId == Some(activeDropZoneId) && !e.hasRelatedTarget)
  }

  /** Classifies one admitted event against the current drag state. */
  function Handle(s: DragState, rect: Rect, activeDropZoneId: string, e: Event): (o: Outcome)
    ensures |o.fired| <= 1
    ensures o.dropEffect != NoneEffect
    ensures OnDragEnter in o.fired <==> e.kind == DRAG_ENTER_EVENT && s == Left
    ensures OnDragLeave in o.fired <==>
              e.kind == DRAG_LEAVE_EVENT && s == Entered && LeaveDetected(rect, activeDropZoneId, e)
    ensures OnDrop in o.fired <==> e.kind == DROP_EVENT
    ensures o.dropEffect == CopyEffect <==> OnDragEnter in o.fired
    ensures o.fired == [] ==> o.state == s
    ensures o.fired != [] ==> (o.state == Entered <==> o.fired == [OnDragEnter])
  {
    if e.kind == DRAG_ENTER_EVENT then
      // Enters fired while the pointer crosses nested children are ignored.
      if s == Left then Outcome(Entered, CopyEffect, [OnDragEnter])
      else Outcome(s, Untouched, [])
    else if e.kind == DRAG_LEAVE_EVENT then
      if s == Entered && LeaveDetected(rect, activeDropZoneId, e) then Outcome(Left, Untouched, [OnDragLeave])
      else Outcome(s, Untouched, [])
    else if e.kind == DROP_EVENT then
      Outcome(Left, Untouched, [OnDrop])
    else
      Outcome(s, Untouched, [])
  }

  /** The listener's gate: the target lies inside the zone and the payload is
      acceptable. */
  predicate Admitted(cfg: Config, e: Event) {
    e.targetInZone && cfg.shouldAcceptDrop(e)
  }

  /** The document-level listener: admitted events go to the handler, every
      other event is marked "none" and otherwise ignored. */
  function Listen(cfg: Config, s: DragState, rect: Rect, e: Event): (o: Outcome)
    ensures o.dropEffect == NoneEffect <==> !Admitted(cfg, e)
    ensures !Admitted(cfg, e) ==> o.state == s && o.fired == []
    ensures Admitted(cfg, e) ==> o == Handle(s, rect, cfg.activeDropZoneId, e)
  {
    if Admitted(cfg, e) then Handle(s, rect, cfg.activeDropZoneId, e)
    else Outcome(s, NoneEffect, [])
  }

  /** An admitted enter in state `Left` opens the session, marks the payload
      "copy" and fires `onDragEnter`; in state `Entered` it does nothing. */
  lemma EnterOpensSessionOnce(cfg: Config, s: DragState, rect: Rect, e: Event)
    requires Admitted(cfg, e) && e.kind == DRAG_ENTER_EVENT
    ensures var o := Listen(cfg, s, rect, e);
            o.state == Entered &&
            (s == Left ==> o.fired == [OnDragEnter] && o.dropEffect == CopyEffect) &&
            (s == Entered ==> o.fired == [] && o.dropEffect == Untouched)
  {
  }

  /** A leave in state `Left` never fires and keeps the state. */
  lemma LeaveWhileLeftIsSilent(cfg: Config, rect: Rect, e: Event)
    requires e.kind == DRAG_LEAVE_EVENT
    ensures Listen(cfg, Left, rect, e).state == Left
    ensures Listen(cfg, Left, rect, e).fired == []
  {
  }

  /** An admitted leave in state `Entered` closes the session and fires
      `onDragLeave` exactly when the leave test holds; otherwise nothing
      happens. */
  lemma LeaveWhileEnteredFollowsBoundary(cfg: Config, rect: Rect, e: Event)
    requires Admitted(cfg, e) && e.kind == DRAG_LEAVE_EVENT
    ensures var o := Listen(cfg, Entered, rect, e);
            (LeaveDetected(rect, cfg.activeDropZoneId, e) ==> o.state == Left && o.fired == [OnDragLeave]) &&
            (!LeaveDetected(rect, cfg.activeDropZoneId, e) ==> o.state == Entered && o.fired == [])
  {
  }

  /** An admitted drop resets the state from either state and fires `onDrop`
      exactly once. */
  lemma DropAlwaysResets(cfg: Config, s: DragState, rect: Rect, e: Event)
    requires Admitted(cfg, e) && e.kind == DROP_EVENT
    ensures Listen(cfg, s, rect, e).state == Left
    ensures Listen(cfg, s, rect, e).fired == [OnDrop]
  {
  }

  /** Events of any other type, even admitted ones, change nothing. */
  lemma OtherKindsAreInert(cfg: Config, s: DragState, rect: Rect, e: Event)
    requires e.kind != DRAG_ENTER_EVENT && e.kind != DRAG_LEAVE_EVENT && e.kind != DROP_EVENT
    ensures Listen(cfg, s, rect, e).state == s
    ensures Listen(cfg, s, rect, e).fired == []
  {
  }

  /** Under the default policy, a payload without a "Files" entry never
      reaches classification. */
  lemma DefaultRejectsNonFiles(activeDropZoneId: string, breakpoint: int, s: DragState, rect: Rect, e: Event)
    requires e.types.None? || FILES_TYPE !in e.types.value
    ensures var o := Listen(DefaultConfig(activeDropZoneId, breakpoint), s, rect, e);
            o.state == s && o.fired == [] && o.dropEffect == NoneEffect
  {
  }

  /** The boundary test on concrete numbers: with the zone cached at
      left 10, right 110, top 10, bottom 60, a leave at (5, 30) closes the
      session and a leave at (50, 30) from a child element does not. */
  lemma BoundaryExample(cfg: Config)
    requires cfg.activeDropZoneId == "activeZone"
    requires cfg.shouldAcceptDrop(Event(DRAG_LEAVE_EVENT, true, Some([FILES_TYPE]), 5, 30, Some("child"), true))
    requires cfg.shouldAcceptDrop(Event(DRAG_LEAVE_EVENT, true, Some([FILES_TYPE]), 50, 30, Some("child"), true))
    ensures var rect := Rect(10, 110, 10, 60, 100);
            var outside := Listen(cfg, Entered, rect, Event(DRAG_LEAVE_EVENT, true, Some([FILES_TYPE]), 5, 30, Some("child"), true));
            var inside := Listen(cfg, Entered, rect, Event(DRAG_LEAVE_EVENT, true, Some([FILES_TYPE]), 50, 30, Some("child"), true));
            outside.state == Left && outside.fired == [OnDragLeave] &&
            inside.state == Entered && inside.fired == []
  {
  }
}

=== FILE: drag_session.dfy ===
/**
 Runs of the drag listener over sequences of document events, with a fixed
 cached rectangle, and the session discipline they obey: `onDragEnter` opens
 a session, `onDragLeave` closes an open one, `onDrop` closes whatever is
 there, and no session is opened twice.
 */
module DragSession {
  import opened DragEvent
  import opened Geometry
  import opened DragHandler

  /** The final drag state and every callback fired along a run, in order. */
  datatype Trace = Trace(state: DragState, fired: seq<Callback>)

  function Run(cfg: Config, s: DragState, rect: Rect, es: seq<Event>): (t: Trace)
    ensures |t.fired| <= |es|
    ensures t.fired == [] ==> t.state == s
    decreases |es|
  {
    if es == [] then Trace(s, [])
    else
      var o := Listen(cfg, s, rect, es[0]);
      var rest := Run(cfg, o.state, rect, es[1..]);
      Trace(rest.state, o.fired + rest.fired)
  }

  /** `cbs` is a well-bracketed callback history that starts with a session
      open iff `open` and ends with one open iff `endOpen`. */
  predicate Alternates(cbs: seq<Callback>, open: bool, endOpen: bool)
    decreases |cbs|
  {
    if cbs == [] then open == endOpen
    else match cbs[0]
      case OnDragEnter => !open && Alternates(cbs[1..], true, endOpen)
      case OnDragLeave => open && Alternates(cbs[1..], false, endOpen)
      case OnDrop => Alternates(cbs[1..], false, endOpen)
  }

  function Count(c: Callback, cbs: seq<Callback>): (n: nat)
    ensures n <= |cbs|
    ensures n == 0 <==> c !in cbs
    decreases |cbs|
  {
    if cbs == [] then 0
    else (if cbs[0] == c then 1 else 0) + Count(c, cbs[1..])
  }

  predicate AllAdmittedEnters(cfg: Config, es: seq<Event>) {
    forall i :: 0 <= i < |es| ==> es[i].kind == DRAG_ENTER_EVENT && Admitted(cfg, es[i])
  }

  /** Running `a ++ b` is running `a`, then `b` from where `a` stopped. */
  lemma {:induction false} RunAppend(cfg: Config, s: DragState, rect: Rect, a: seq<Event>, b: seq<Event>)
    ensures var ta := Run(cfg, s, rect, a);
            var tb := Run(cfg, ta.state, rect, b);
            Run(cfg, s, rect, a + b) == Trace(tb.state, ta.fired + tb.fired)
    decreases |a|
  {
    if a == [] {
      assert a + b == b;
    } else {
      var o := Listen(cfg, s, rect, a[0]);
      assert (a + b)[0] == a[0];
      assert (a + b)[1..] == a[1..] + b;
      RunAppend(cfg, o.state, rect, a[1..], b);
      var ta' := Run(cfg, o.state, rect, a[1..]);
      var tb := Run(cfg, ta'.state, rect, b);
      assert o.fired + (ta'.fired + tb.fired) == (o.fired + ta'.fired) + tb.fired;
    }
  }

  /** A history of at most one callback followed by a well-bracketed one. */
  lemma AlternatesPrefix(o: Outcome, s: DragState, rest: seq<Callback>, endOpen: bool)
    requires |o.fired| <= 1
    requires o.fired == [] ==> o.state == s
    requires o.fired == [OnDragEnter] ==> s == Left && o.state == Entered
    requires o.fired == [OnDragLeave] ==> s == Entered && o.state == Left
    requires o.fired == [OnDrop] ==> o.state == Left
    requires Alternates(rest, o.state == Entered, endOpen)
    ensures Alternates(o.fired + rest, s == Entered, endOpen)
  {
    if o.fired != [] {
      assert (o.fired + rest)[0] == o.fired[0];
      assert (o.fired + rest)[1..] == rest;
    } else {
      assert o.fired + rest == rest;
    }
  }

  /** Every run is well bracketed: the callbacks it fires alternate between
      opening and closing a session, starting from the initial drag state and
      ending in the final one. In particular no `onDragEnter` is ever fired
      while a session is open. */
  lemma {:induction false} RunAlternates(cfg: Config, s: DragState, rect: Rect, es: seq<Event>)
    ensures var t := Run(cfg, s, rect, es);
            Alternates(t.fired, s == Entered, t.state == Entered)
    decreases |es|
  {
    if es != [] {
      var o := Listen(cfg, s, rect, es[0]);
      var rest := Run(cfg, o.state, rect, es[1..]);
      RunAlternates(cfg, o.state, rect, es[1..]);
      assert o.fired == [] || o.fired == [OnDragEnter] || o.fired == [OnDragLeave] || o.fired == [OnDrop];
      AlternatesPrefix(o, s, rest.fired, rest.state == Entered);
    }
  }

  /** In a well-bracketed history, sessions are opened no more often than
      they are closed, plus one for a session left open at the end. */
  lemma {:induction false} AlternatesBoundsEnters(cbs: seq<Callback>, open: bool, endOpen: bool)
    requires Alternates(cbs, open, endOpen)
    ensures Count(OnDragEnter, cbs) + (if open then 1 else 0)
            <= Count(OnDragLeave, cbs) + Count(OnDrop, cbs) + (if endOpen then 1 else 0)
    decreases |cbs|
  {
    if cbs != [] {
      match cbs[0]
      case OnDragEnter => AlternatesBoundsEnters(cbs[1..], true, endOpen);
      case OnDragLeave => AlternatesBoundsEnters(cbs[1..], false, endOpen);
      case OnDrop => AlternatesBoundsEnters(cbs[1..], false, endOpen);
    }
  }

  /** From the initial state, a run fires `onDragEnter` at most once more
      than it fires `onDragLeave` and `onDrop` together. */
  lemma EnterFiresOncePerSession(cfg: Config, rect: Rect, es: seq<Event>)
    ensures var t := Run(cfg, InitialDragState, rect, es);
            Count(OnDragEnter, t.fired) <= Count(OnDragLeave, t.fired) + Count(OnDrop, t.fired) + 1
  {
    RunAlternates(cfg, InitialDragState, rect, es);
    var t := Run(cfg, InitialDragState, rect, es);
    AlternatesBoundsEnters(t.fired, false, t.state == Entered);
  }

  /** A non-empty run of admitted enters ends in `Entered` and fires
      `onDragEnter` exactly once if it started in `Left`, never otherwise. */
  lemma {:induction false} ConsecutiveEntersFireOnce(cfg: Config, s: DragState, rect: Rect, es: seq<Event>)
    requires |es| >= 1
    requires AllAdmittedEnters(cfg, es)
    ensures Run(cfg, s, rect, es).state == Entered
    ensures Run(cfg, s, rect, es).fired == (if s == Left then [OnDragEnter] else [])
    decreases |es|
  {
    var o := Listen(cfg, s, rect, es[0]);
    assert o.state == Entered;
    if |es| > 1 {
      assert AllAdmittedEnters(cfg, es[1..]) by {
        forall i | 0 <= i < |es[1..]|
          ensures es[1..][i].kind == DRAG_ENTER_EVENT && Admitted(cfg, es[1..][i])
        {
          assert es[1..][i] == es[i + 1];
        }
      }
      ConsecutiveEntersFireOnce(cfg, Entered, rect, es[1..]);
    }
  }

  /** Whatever happened before, an admitted drop ends the run in `Left` with
      `onDrop` as the last callback fired. */
  lemma DropResetsAnyHistory(cfg: Config, s: DragState, rect: Rect, history: seq<Event>, drop: Event)
    requires drop.kind == DROP_EVENT && Admitted(cfg, drop)
    ensures var t := Run(cfg, s, rect, history + [drop]);
            t.state == Left && |t.fired| >= 1 && t.fired[|t.fired| - 1] == OnDrop
  {
    RunAppend(cfg, s, rect, history, [drop]);
    var th := Run(cfg, s, rect, history);
    assert [drop][1..] == [];
    assert Run(cfg, th.state, rect, [drop]) == Trace(Left, [OnDrop]);
  }

  /** A run of events none of which is admitted fires nothing and leaves the
      drag state where it was. */
  lemma {:induction false} RejectedRunIsInert(cfg: Config, s: DragState, rect: Rect, es: seq<Event>)
    requires forall i :: 0 <= i < |es| ==> !Admitted(cfg, es[i])
    ensures Run(cfg, s, rect, es) == Trace(s, [])
    decreases |es|
  {
    if es != [] {
      RejectedRunIsInert(cfg, s, rect, es[1..]);
    }
  }
}

=== FILE: drop_zone.dfy ===
/**
 The whole drop-zone component: drag state, listener registration with its
 cached rectangle, and the focus/enabled signals of the last render, driven
 by the inputs the host delivers one at a time.

 The previous-value hook is assumed to report no previous value on the first
 render, so the focus/enabled effect always runs at mount.
 */
module DropZone {
  import opened DragEvent
  import opened Geometry
  import opened DragHandler
  import opened Listeners
  import DragSession

  datatype Component = Component(
    cfg: Config,
    drag: DragState,
    reg: Registration,
    isFocused: bool,
    isDisabled: bool,
    mountCleanup: bool)   // the mount effect returned its cleanup (the zone was enabled at mount)

  datatype HostInput =
    | DomEvent(e: Event)                                   // a document-level event of any type
    | WindowResize(m: Measure)                             // the (throttled) resize listener runs
    | Rerender(isFocused: bool, isDisabled: bool, m: Measure)  // new signal values from the host

  datatype Reaction = Reaction(dropEffect: DropEffect, fired: seq<Callback>)

  const Quiet: Reaction := Reaction(Untouched, [])

  datatype Step = Step(next: Component, reaction: Reaction)

  /** The event types the zone registers a document listener for; events of
      any other type never reach it. */
  predicate ListenedKind(kind: string) {
    kind == DRAG_ENTER_EVENT || kind == DRAG_LEAVE_EVENT || kind == DROP_EVENT
  }

  /** Listeners are registered exactly while the screen is focused and the
      zone enabled. */
  predicate Synced(c: Component) {
    c.reg.Attached? <==> c.isFocused && !c.isDisabled
  }

  /** The first render: both effects run, the mount-only one first. */
  function Mount(cfg: Config, isFocused: bool, isDisabled: bool, m: Measure): (c: Component)
    ensures c.cfg == cfg && c.drag == InitialDragState
    ensures c.reg.Attached? <==> isFocused && !isDisabled
    ensures c.reg.Attached? ==> c.reg.rect == ComputeRect(m.bounds, m.innerWidth, cfg.breakpoint)
    ensures c.isFocused == isFocused && c.isDisabled == isDisabled
    ensures c.mountCleanup <==> !isDisabled
  {
    var mounted := MountEffect(isDisabled, m, cfg.breakpoint);
    Component(cfg, InitialDragState, SyncEffect(mounted, None, None, isFocused, isDisabled, m, cfg.breakpoint),
              isFocused, isDisabled, !isDisabled)
  }

  /** The first render with `isDisabled` omitted: the zone is enabled, so
      listeners are registered exactly when the screen is focused, and the
      mount effect returns its cleanup. */
  function MountWithDefaults(cfg: Config, isFocused: bool, m: Measure): (c: Component)
    ensures c.cfg == cfg && c.drag == InitialDragState
    ensures c.reg.Attached? <==> isFocused
    ensures !c.isDisabled && c.mountCleanup
  {
    Mount(cfg, isFocused, DefaultIsDisabled, m)
  }

  /** Unmounting runs the mount effect's cleanup, which removes the listeners.
      A zone mounted disabled returned no cleanup, and the focus effect has
      none, so its listeners stay registered. */
  function Unmount(c: Component): (r: Component)
    ensures c.mountCleanup ==> r.reg.Detached?
    ensures !c.mountCleanup ==> r.reg == c.reg
    ensures r == c.(reg := r.reg)
  {
    if c.mountCleanup then c.(reg := Detached) else c
  }

  function Deliver(c: Component, input: HostInput): (s: Step)
    ensures s.next.cfg == c.cfg
    ensures Synced(c) ==> Synced(s.next)
    ensures s.reaction.fired != [] ==> input.DomEvent? && c.reg.Attached?
    ensures !input.DomEvent? ==> s.next.drag == c.drag && s.reaction == Quiet
    ensures c.reg.Detached? && !input.Rerender? ==> s == Step(c, Quiet)
    ensures input.DomEvent? && !ListenedKind(input.e.kind) ==> s == Step(c, Quiet)
    ensures input.DomEvent? && ListenedKind(input.e.kind) && c.reg.Attached? ==>
              var o := Listen(c.cfg, c.drag, c.reg.rect, input.e);
              s.next == c.(drag := o.state) && s.reaction == Reaction(o.dropEffect, o.fired)
    ensures input.WindowResize? && c.reg.Attached? ==>
              s.next == c.(reg := Attached(ComputeRect(input.m.bounds, input.m.innerWidth, c.cfg.breakpoint)))
    ensures input.Rerender? ==>
              s.next == c.(reg := SyncEffect(c.reg, Some(c.isFocused), Some(c.isDisabled),
                                             input.isFocused, input.isDisabled, input.m, c.cfg.breakpoint),
                           isFocused := input.isFocused, isDisabled := input.isDisabled)
  {
    match input
    case DomEvent(e) =>
      if c.reg.Detached? || !ListenedKind(e.kind) then Step(c, Quiet)
      else
        var o := Listen(c.cfg, c.drag, c.reg.rect, e);
        Step(c.(drag := o.state), Reaction(o.dropEffect, o.fired))
    case WindowResize(m) =>
      if c.reg.Detached? then Step(c, Quiet)
      else Step(c.(reg := Attached(MeasuredRect(m, c.cfg.breakpoint))), Quiet)
    case Rerender(f, d, m) =>
      var reg := SyncEffect(c.reg, Some(c.isFocused), Some(c.isDisabled), f, d, m, c.cfg.breakpoint);
      Step(c.(reg := reg, isFocused := f, isDisabled := d), Quiet)
  }

  datatype HostTrace = HostTrace(last: Component, fired: seq<Callback>)

  function RunHost(c: Component, inputs: seq<HostInput>): (t: HostTrace)
    ensures t.last.cfg == c.cfg
    ensures |t.fired| <= |inputs|
    decreases |inputs|
  {
    if inputs == [] then HostTrace(c, [])
    else
      var s := Deliver(c, inputs[0]);
      var rest := RunHost(s.next, inputs[1..]);
      HostTrace(rest.last, s.reaction.fired + rest.fired)
  }

  datatype Signals = Signals(isFocused: bool, isDisabled: bool)

  /** The signal values in force after `inputs`: those of the last
      `Rerender` among them, or `current` when there is none. */
  function FinalSignals(current: Signals, inputs: seq<HostInput>): Signals
    decreases |inputs|
  {
    if inputs == [] then current
    else if inputs[0].Rerender? then FinalSignals(Signals(inputs[0].isFocused, inputs[0].isDisabled), inputs[1..])
    else FinalSignals(current, inputs[1..])
  }

  /** From mount onwards, whatever the host delivers, listeners are
      registered exactly when the signals of the last render (the mount
      values if no re-render came) say focused and enabled. */
  lemma RegistrationFollowsSignals(cfg: Config, isFocused: bool, isDisabled: bool,
                                   m: Measure, inputs: seq<HostInput>)
    ensures var f := FinalSignals(Signals(isFocused, isDisabled), inputs);
            RunHost(Mount(cfg, isFocused, isDisabled, m), inputs).last.reg.Attached?
            <==> f.isFocused && !f.isDisabled
  {
    StaysSynced(Mount(cfg, isFocused, isDisabled, m), inputs);
  }

  /** A synced component stays synced, and the signals it records are those
      the host delivered last. */
  lemma {:induction false} StaysSynced(c: Component, inputs: seq<HostInput>)
    requires Synced(c)
    ensures Synced(RunHost(c, inputs).last)
    ensures var t := RunHost(c, inputs).last;
            Signals(t.isFocused, t.isDisabled) == FinalSignals(Signals(c.isFocused, c.isDisabled), inputs)
    decreases |inputs|
  {
    if inputs != [] {
      StaysSynced(Deliver(c, inputs[0]).next, inputs[1..]);
    }
  }

  /** A drag event reaches a callback only while the screen is focused and
      the zone enabled. */
  lemma CallbacksOnlyWhileActive(c: Component, e: Event)
    requires Synced(c)
    requires Deliver(c, DomEvent(e)).reaction.fired != []
    ensures c.isFocused && !c.isDisabled
  {
  }

  predicate NoRerender(inputs: seq<HostInput>) {
    forall i :: 0 <= i < |inputs| ==> !inputs[i].Rerender?
  }

  /** With listeners removed and no new render to add them back, no callback
      fires and nothing registers again. */
  lemma {:induction false} DetachedIsSilent(c: Component, inputs: seq<HostInput>)
    requires c.reg.Detached?
    requires NoRerender(inputs)
    ensures RunHost(c, inputs).fired == []
    ensures RunHost(c, inputs).last == c
    decreases |inputs|
  {
    if inputs != [] {
      assert !inputs[0].Rerender?;
      var s := Deliver(c, inputs[0]);
      assert s.next == c;
      assert NoRerender(inputs[1..]) by {
        forall i | 0 <= i < |inputs[1..]| ensures !inputs[1..][i].Rerender? {
          assert inputs[1..][i] == inputs[i + 1];
        }
      }
      DetachedIsSilent(c, inputs[1..]);
    }
  }

  /** After unmounting a zone that was enabled at mount, nothing the host
      still delivers fires a callback. */
  lemma UnmountIsSilent(c: Component, inputs: seq<HostInput>)
    requires c.mountCleanup
    requires NoRerender(inputs)
    ensures RunHost(Unmount(c), inputs).fired == []
  {
    DetachedIsSilent(Unmount(c), inputs);
  }

  function DomEvents(es: seq<Event>): (inputs: seq<HostInput>)
    ensures |inputs| == |es|
    ensures forall i :: 0 <= i < |es| ==> inputs[i] == DomEvent(es[i])
  {
    seq(|es|, i requires 0 <= i < |es| => DomEvent(es[i]))
  }

  /** While listeners stay registered and only document events arrive, the
      component behaves exactly as the listener run over
      those events, so every session property of the listener carries over. */
  lemma {:induction false} AttachedRunIsSessionRun(c: Component, es: seq<Event>)
    requires c.reg.Attached?
    ensures var t := RunHost(c, DomEvents(es));
            var r := DragSession.Run(c.cfg, c.drag, c.reg.rect, es);
            t.fired == r.fired && t.last == c.(drag := r.state)
    decreases |es|
  {
    if es != [] {
      var o := Listen(c.cfg, c.drag, c.reg.rect, es[0]);
      assert DomEvents(es)[1..] == DomEvents(es[1..]);
      AttachedRunIsSessionRun(c.(drag := o.state), es[1..]);
    }
  }

  /** A resize, even in the middle of a drag, only replaces the cached
      rectangle: the drag state stays and nothing fires. */
  lemma ResizeKeepsSession(c: Component, m: Measure)
    requires c.reg.Attached?
    ensures var s := Deliver(c, WindowResize(m));
            s.next.drag == c.drag && s.reaction.fired == [] &&
            s.next.reg == Attached(ComputeRect(m.bounds, m.innerWidth, c.cfg.breakpoint))
  {
  }

  /** Removing the listeners does not reset the drag state. A session open
      when the screen loses focus is still open after it regains focus, so
      the next admitted enter fires nothing. */
  lemma StaleSessionAfterRefocus(c: Component, m: Measure, e: Event)
    requires c.reg.Attached? && c.isFocused && !c.isDisabled && c.drag == Entered
    requires e.kind == DRAG_ENTER_EVENT && Admitted(c.cfg, e)
    ensures var t := RunHost(c, [Rerender(false, false, m), Rerender(true, false, m), DomEvent(e)]);
            t.fired == [] && t.last.drag == Entered && t.last.reg.Attached?
  {
    var c1 := Deliver(c, Rerender(false, false, m)).next;
    assert c1.reg.Detached? && c1.drag == Entered;
    var c2 := Deliver(c1, Rerender(true, false, m)).next;
    assert c2.reg.Attached? && c2.drag == Entered;
    var s3 := Deliver(c2, DomEvent(e));
    assert s3.reaction.fired == [] && s3.next.drag == Entered;
    var inputs := [Rerender(false, false, m), Rerender(true, false, m), DomEvent(e)];
    assert inputs[1..] == [Rerender(true, false, m), DomEvent(e)];
    assert inputs[1..][1..] == [DomEvent(e)];
    assert RunHost(c2, [DomEvent(e)]) == HostTrace(s3.next, []);
    assert RunHost(c1, inputs[1..]) == HostTrace(s3.next, []);
  }

  /** A zone mounted disabled and enabled by a later render keeps its
      listeners after unmount: an admitted drop inside the zone still fires
      `onDrop`. */
  lemma ListenersOutliveDisabledMount(cfg: Config, m: Measure, e: Event)
    requires e.kind == DROP_EVENT && Admitted(cfg, e)
    ensures var c := Deliver(Mount(cfg, true, true, m), Rerender(true, false, m)).next;
            Unmount(c).reg.Attached? &&
            Deliver(Unmount(c), DomEvent(e)).reaction.fired == [OnDrop]
  {
  }

  /** Every run of the component, resizes and re-renders included, fires a
      well-bracketed callback history: `onDragEnter` only when no session is
      open, `onDragLeave` only when one is. Losing and regaining focus does
      not close a session, so it cannot open a second one either. */
  lemma {:induction false} HostRunAlternates(c: Component, inputs: seq<HostInput>)
    ensures var t := RunHost(c, inputs);
            DragSession.Alternates(t.fired, c.drag == Entered, t.last.drag == Entered)
    decreases |inputs|
  {
    if inputs != [] {
      var s := Deliver(c, inputs[0]);
      var rest := RunHost(s.next, inputs[1..]);
      HostRunAlternates(s.next, inputs[1..]);
      var o := Outcome(s.next.drag, s.reaction.dropEffect, s.reaction.fired);
      DragSession.AlternatesPrefix(o, c.drag, rest.fired, rest.last.drag == Entered);
    }
  }

  /** From mount, whatever the host delivers, `onDragEnter` fires at most
      once more than `onDragLeave` and `onDrop` together. */
  lemma EnterFiresOncePerSessionFromMount(cfg: Config, isFocused: bool, isDisabled: bool,
                                          m: Measure, inputs: seq<HostInput>)
    ensures var t := RunHost(Mount(cfg, isFocused, isDisabled, m), inputs);
            DragSession.Count(OnDragEnter, t.fired)
            <= DragSession.Count(OnDragLeave, t.fired) + DragSession.Count(OnDrop, t.fired) + 1
  {
    var c := Mount(cfg, isFocused, isDisabled, m);
    HostRunAlternates(c, inputs);
    var t := RunHost(c, inputs);
    DragSession.AlternatesBoundsEnters(t.fired, false, t.last.drag == Entered);
  }
}

=== FILE: geometry.dfy ===
/**
 The drop zone's cached bounding rectangle and the boundary test the leave
 classification uses.

 Browser coordinates are doubles; the tracker only ever compares them with
 `<=` and `>=`, so integers stand in for them here.
 */
module Geometry {

  /** A rectangle in viewport coordinates: both the measured bounding client
      rectangle of the zone element and the cached copy derived from it. */
  datatype Rect = Rect(left: int, right: int, top: int, bottom: int, width: int)

  predicate WellFormed(r: Rect) {
    r.left <= r.right && r.top <= r.bottom
  }

  /** The cached rectangle for a measurement taken at viewport width
      `innerWidth`. At or below the responsive breakpoint the browser does not
      normalise the horizontal edges, so they are pinned to the viewport. */
  function ComputeRect(measured: Rect, innerWidth: int, breakpoint: int): (r: Rect)
    ensures r.width == measured.width && r.top == measured.top && r.bottom == measured.bottom
    ensures innerWidth <= breakpoint ==> r.left == 0 && r.right == innerWidth
    ensures innerWidth > breakpoint ==> r.left == measured.left && r.right == measured.right
  {
    var narrow := innerWidth <= breakpoint;
    Rect(
      if narrow then 0 else measured.left,
      if narrow then innerWidth else measured.right,
      measured.top,
      measured.bottom,
      measured.width)
  }

  /** The pointer test of a leave event: the point lies on or beyond one of
      the cached edges. */
  predicate OutsideRect(r: Rect, x: int, y: int) {
    y <= r.top || y >= r.bottom || x <= r.left || x >= r.right
  }

  /** Points strictly between the edges: the pointer is inside the zone. */
  predicate StrictlyInside(r: Rect, x: int, y: int) {
    r.left < x < r.right && r.top < y < r.bottom
  }

  lemma OutsideIsComplementOfInside(r: Rect, x: int, y: int)
    ensures OutsideRect(r, x, y) <==> !StrictlyInside(r, x, y)
  {
  }

  /** A sensible measurement at a non-negative viewport width yields a
      rectangle whose edges are ordered. */
  lemma ComputeRectWellFormed(measured: Rect, innerWidth: int, breakpoint: int)
    requires WellFormed(measured)
    requires innerWidth >= 0
    ensures WellFormed(ComputeRect(measured, innerWidth, breakpoint))
  {
  }

  /** The leave test against the cached rectangle: above the breakpoint it
      is the test against the measured edges; at or below it, the horizontal
      edges are the viewport's own. */
  lemma CachedLeaveBoundary(measured: Rect, innerWidth: int, breakpoint: int, x: int, y: int)
    ensures innerWidth > breakpoint ==>
              (OutsideRect(ComputeRect(measured, innerWidth, breakpoint), x, y) <==> OutsideRect(measured, x, y))
    ensures innerWidth <= breakpoint ==>
              (OutsideRect(ComputeRect(measured, innerWidth, breakpoint), x, y) <==>
               y <= measured.top || y >= measured.bottom || x <= 0 || x >= innerWidth)
  {
  }

  /** At or below the breakpoint every pointer strictly inside the viewport and
      strictly between the measured top and bottom counts as inside the zone,
      whatever the measured horizontal edges were. */
  lemma NarrowViewportSpansWidth(measured: Rect, innerWidth: int, breakpoint: int, x: int, y: int)
    requires innerWidth <= breakpoint
    requires 0 < x < innerWidth && measured.top < y < measured.bottom
    ensures !OutsideRect(ComputeRect(measured, innerWidth, breakpoint), x, y)
  {
  }

  /** The responsive clamp on concrete numbers: a 400-wide viewport under a
      500 breakpoint caches edges 0 and 400 for a zone measured at 20..380. */
  lemma ClampExample()
    ensures ComputeRect(Rect(20, 380, 10, 60, 360), 400, 500) == Rect(0, 400, 10, 60, 360)
  {
  }
}

=== FILE: listeners.dfy ===
/**
 Registration of the zone's document and window listeners, driven by the
 enabled and focused signals of the hosting screen.

 Adding listeners also measures the zone and caches its rectangle; removing
 them drops the cache from consideration. Listener identity across renders
 and the DOM calls themselves are not modelled: the registration is either
 absent or present with the rectangle it measured.
 */
module Listeners {
  import opened DragEvent
  import opened Geometry

  /** A measurement of the zone element: its bounding client rectangle and
      the viewport width at the time. */
  datatype Measure = Measure(bounds: Rect, innerWidth: int)

  datatype Registration = Detached | Attached(rect: Rect)

  function MeasuredRect(m: Measure, breakpoint: int): Rect {
    ComputeRect(m.bounds, m.innerWidth, breakpoint)
  }

  /** The mount-only effect: attach unless the zone is disabled. */
  function MountEffect(isDisabled: bool, m: Measure, breakpoint: int): (r: Registration)
    ensures r.Attached? <==> !isDisabled
    ensures r.Attached? ==> r.rect == MeasuredRect(m, breakpoint)
  {
    if isDisabled then Detached else Attached(MeasuredRect(m, breakpoint))
  }

  /** Whether the focus/enabled effect runs at all: it is skipped when neither
      signal differs from its value at the previous render (`None` stands for
      a render with no previous value). */
  predicate SignalsUnchanged(prevIsFocused: Option<bool>, prevIsDisabled: Option<bool>, isFocused: bool, isDisabled: bool) {
    prevIsFocused == Some(isFocused) && prevIsDisabled == Some(isDisabled)
  }

  /** The focus/enabled effect: when a signal changed, remove the listeners if
      the screen is unfocused or the zone disabled, add them otherwise. */
  function SyncEffect(reg: Registration, prevIsFocused: Option<bool>, prevIsDisabled: Option<bool>,
                      isFocused: bool, isDisabled: bool, m: Measure, breakpoint: int): (r: Registration)
    ensures SignalsUnchanged(prevIsFocused, prevIsDisabled, isFocused, isDisabled) ==> r == reg
    ensures !SignalsUnchanged(prevIsFocused, prevIsDisabled, isFocused, isDisabled) ==>
              (r.Attached? <==> isFocused && !isDisabled)
    ensures !SignalsUnchanged(prevIsFocused, prevIsDisabled, isFocused, isDisabled) && isFocused && !isDisabled ==>
              r == Attached(MeasuredRect(m, breakpoint))
  {
    if SignalsUnchanged(prevIsFocused, prevIsDisabled, isFocused, isDisabled) then reg
    else if !isFocused || isDisabled then Detached
    else Attached(MeasuredRect(m, breakpoint))
  }

  /** Once the registration agrees with the signals, every later render keeps
      it in agreement, whether or not the effect runs. */
  lemma SyncPreservesAgreement(reg: Registration, prevIsFocused: bool, prevIsDisabled: bool,
                               isFocused: bool, isDisabled: bool, m: Measure, breakpoint: int)
    requires reg.Attached? <==> prevIsFocused && !prevIsDisabled
    ensures SyncEffect(reg, Some(prevIsFocused), Some(prevIsDisabled), isFocused, isDisabled, m, breakpoint).Attached?
            <==> isFocused && !isDisabled
  {
  }
}
